=== FILE: README.md ===
# pulurobot client: wire protocol and point store

This Dafny project models the core of the pulurobot client. The client is a Rust program that drives a PuluRobot over TCP. How the front ends use connections differs:

- The robot library (src/pulurobot) opens a connection for each command and for each location read. It shuts the connection down when the command succeeds; a failed write returns before the shutdown.
- The command-line client of src/main.rs opens a connection of its own for "listen".
- The console client (src/console/main.rs) opens a connection in each handler.
- The library of the console client (src/console/pulurobot) writes on the stream it was built with.
- The older robot client (src/robot/main.rs) keeps one stream for its whole run.

The core has three parts:

- The length-prefixed binary frames the client writes to the robot:
  - `free`, `localize` and `stop` are four-byte frames with opcode 58.
  - `goto` is a twelve-byte frame with opcode 56, carrying big-endian `i32` coordinates.
- The frames the robot sends back. Each is a three-byte header (opcode, big-endian `u16` length) followed by exactly that many payload bytes. Which opcodes are decoded depends on the listener:
  - src/main.rs decodes 130 (position), 134 (battery), 139 (state) and 140 (geometry), names 138 without decoding it, and passes over the rest.
  - src/console/main.rs decodes the same four opcodes and passes over everything else, 138 included.
  - src/robot/main.rs decodes only 130, names 140 without decoding it, and passes over the rest.
- The small store of the two named points "a" and "b", which every "save" and "goto" command goes through.

The same logic is copied across five front ends, and each gets its own module:

- the robot library (`src/pulurobot`): `Library`, `PointStore`, `RobotTypes`;
- the stream-holding library of the console client (`src/console/pulurobot`): `ConsoleLibrary`;
- the command-line client built on the library (`src/main.rs`): `MainCli`;
- the console client (`src/console/main.rs`): `ConsoleCli`, `CliConfig`;
- the older robot client (`src/robot/main.rs`): `RobotCli`, `CliConfig`.

Shared modules:

- `Bits`: bytes, big-endian integers, and Rust's `|` and `&` on naturals.
- `Framing`: headers and whole frames.
- `Commands`: outbound frames.
- `Telemetry`: the three decoders.
- `Listener`: the listen loop.
- `Scan`: the "read the current location" loop.
- `Outcomes`: `Option`, `Result`, and `Run`, which records whether a handler returned a value, panicked (and why), or never returns.

The socket is abstract:

- Whether a connect or a write succeeds is a boolean input.
- What the robot sends is a byte sequence: everything it sends before the connection reaches end of stream.
- The stop signal of a listener is a function from the index of the frame just handled to whether the poll after it found a stop message (or a closed channel).

Where the code does something other than its comments and names suggest, the model follows the code:

- A payload too short for its branch's slices makes the listener panic; the listener has no fallback for it.
- The battery flag `finished` (commented "Finished charging" at src/main.rs:183) can never be true, because `p[0] & 2` is compared with 1. A payload `[3, 1, 0xF4, 50]`, with both low bits set, decodes with `finished` false.
- The battery voltage is `p[1] * 256`, because `(p[2] as i32) / 1000` is evaluated before the `|` and is 0 for every byte.

## Model

| member | source | states |
|---|---|---|
| Bits.OrShiftedByte | src/main.rs:159 | `(b1 << 8) \| b2` on two bytes is b1·256 + b2: the or of a shifted byte and a byte is their sum |
| Bits.AndOne | src/main.rs:182 | `b & 1` is the lowest bit of b |
| Bits.AndTwo | src/main.rs:183 | `b & 2` is 0 or 2, never 1 |
| Bits.I32RoundTrip | src/pulurobot/pulurobot.rs:131-148 | the four bytes `x>>24, x>>16, x>>8, x` (each truncated to `u8`), read back as a big-endian `i32`, give x for every `i32` |
| Bits.I32BytesOfRead | src/main.rs:166-172 | any four bytes read as a big-endian `i32` and written back are those four bytes |
| Bits.I16RoundTrip | src/main.rs:207-214 | a big-endian `i16` written as two bytes reads back as itself |
| Bits.I16BytesOfRead | src/main.rs:207-214 | any two bytes read as a big-endian `i16` and written back are those bytes |
| Bits.ReadI32Prefix | src/robot/main.rs:145-150 | reading an `i32` looks at the first four bytes only, so the slices 2..7 and 6..11 read what 2..6 and 6..10 hold |
| Framing.DecodeHeader | src/main.rs:154-159 | the opcode is byte 0 and the length is byte1·256 + byte2, below 65536 |
| Framing.HeaderRoundTrip | src/main.rs:154-159 | encoding an opcode and a length below 65536 as a header and decoding it gives them back |
| Framing.HeaderBytesOfDecode | src/main.rs:154-159 | every three bytes are the encoding of the header they decode to |
| Framing.ReadFrame | src/main.rs:154-162 | a frame is read when the header and `length` payload bytes are present, and then the input is that frame's bytes followed by the rest; nothing is read exactly when the input is shorter than a header or than header plus length |
| Framing.ReadSerialized | src/main.rs:154-162 | reading a serialized frame followed by anything gives that frame and leaves exactly the bytes after it |
| Framing.ReadFrameNoneMeansNoFrame | src/main.rs:154-162 | when no frame can be read, no whole frame starts the input |
| Framing.ParseAll | src/main.rs:152-162 | the frames read one after another are well sized and their bytes are a prefix of the input |
| Framing.ParseAllLeavesNoFrame | src/main.rs:152-162 | the frames read one after another are all the whole frames there are: after them no whole frame is left to read |
| Framing.ParseSerialized | src/main.rs:152-162 | frames sent back to back, followed by less than a whole frame, are read back as exactly those frames in order |
| Framing.ParseSerializedPrefix | src/main.rs:152-162 | frames sent back to back are read back first, whatever follows them |
| Commands.Encode | src/pulurobot/pulurobot.rs:131-148 | in every outbound frame the header's length field is the number of bytes after the header; the opcode is 56 for "go to" and 58 otherwise |
| Commands.EncodeDecode | src/pulurobot/pulurobot.rs:131-148 | the robot reads back exactly the command that was encoded, including both coordinates of "go to" for every pair of `i32` |
| Commands.DecodeEncode | src/pulurobot/pulurobot.rs:131-148 | a frame the robot accepts as a command is byte for byte that command's encoding |
| Commands.EncodeInjective | src/pulurobot/pulurobot.rs:84-205 | distinct commands never share a frame |
| Commands.ModeFrames | src/pulurobot/pulurobot.rs:84-205 | `free`, `localize` and `stop` are `[58,0,1,5]`, `[58,0,1,3]` and `[58,0,1,8]` |
| Commands.GotoVector | src/pulurobot/pulurobot.rs:131-148 | `goto(220, -509)` is `[56,0,9,0,0,0,220,255,255,254,3,0]` |
| Telemetry.DecodeBattery | src/main.rs:178-196 | charging exactly when bit 0 of p[0] is set; finished never; voltage p[1]·256, a multiple of 256 in 0..65280; percentage p[3] |
| Telemetry.MainDecode | src/main.rs:163-220 | panics exactly when the payload is shorter than its branch indexes (10, 4, 1 and 8 bytes for 130, 134, 139 and 140), otherwise yields a frame of the same opcode; 139 yields the raw byte p[0]; only 138 is announced by name, and exactly the opcodes without a branch are passed over |
| Telemetry.ConsoleDecode | src/console/main.rs:213-265 | agrees with the main decoder on every opcode except 138, which it passes over, so nothing is ever announced |
| Telemetry.RobotDecode | src/robot/main.rs:141-161 | panics exactly on a position payload shorter than 11 bytes; a position frame of 11 bytes or more decodes as in the main decoder; every other opcode returns without a battery, state or geometry value, and only 140 is announced |
| Telemetry.PositionRoundTrip | src/main.rs:165-172 | angle, x and y laid out big-endian in bytes 0..2, 2..6 and 6..10 are decoded back unchanged whatever bytes follow; the older listener of src/robot/main.rs:143-150 decodes them too once an eleventh byte is present |
| Telemetry.GeometryRoundTrip | src/main.rs:205-216 | four `i16` laid out big-endian in bytes 0..8 are decoded back unchanged whatever bytes follow |
| Telemetry.BatteryVector | src/main.rs:178-196 | the payload `[3, 1, 0xF4, 50]` gives charging, not finished, voltage 256, 50 percent |
| Telemetry.UnknownOpcodeVector | src/main.rs:218-220 | an unknown opcode is passed over |
| Listener.ListenStep | src/main.rs:152-230 | one pass of the loop keeps order of delivery, polling after whole frames, and ending at the first fault |
| Listener.Listen | src/main.rs:152-230 | the frames delivered are the decodings of the frames on the wire in arrival order; the loop stops only after the frame whose poll saw the stop signal, at the first frame that is not whole, or at the first one the decoder cannot handle |
| Listener.ListenScripted | src/main.rs:223-229 | with the first stop seen after frame k, exactly frames 0..k are delivered; with no stop, every frame sent is delivered and the loop ends at the end of the stream |
| Scan.FirstWith | src/pulurobot/pulurobot.rs:53-72 | the index found is that of the first frame with the opcode, and every earlier frame has another opcode |
| Scan.FirstPosition | src/pulurobot/pulurobot.rs:53-72 | the scan reads whole frames and returns x and y from bytes 2..6 and 6..10 of the first position frame, which must hold 11 bytes; it agrees with the reference reading of the parsed frames |
| Scan.ScanSkipsOthers | src/pulurobot/pulurobot.rs:53-72 | frames of other opcodes before a position frame are skipped, and the coordinates the robot put in that frame are returned |
| RobotTypes.StateFrom | src/pulurobot/mod.rs:100-115 | each code in -1..7 maps to the state whose discriminant is that code; other codes panic |
| RobotTypes.StateFromDiscriminant | src/pulurobot/mod.rs:68-78 | every state comes back from its own discriminant |
| RobotTypes.StateFromInjective | src/console/main.rs:44-58 | distinct codes give distinct states |
| PointStore.GetPoint | src/pulurobot/config.rs:95-111 | fails with `Read` exactly for names other than "a" and "b" |
| PointStore.NewConfig | src/pulurobot/config.rs:9-20 | empty strings and both points at the origin |
| PointStore.SetPoint | src/pulurobot/config.rs:82-93 | always `Ok`; the named point reads back as the new pair, every other name reads as before, and the connection fields are untouched |
| PointStore.SetUnknownPoint | src/pulurobot/config.rs:82-93 | a name other than "a" or "b" leaves the record unchanged |
| PointStore.GetAfterSet | src/pulurobot/config.rs:82-111 | after setting n, reading n gives the new pair and reading the other name gives the old answer |
| Library.FromConfig | src/pulurobot/pulurobot.rs:17-38 | a robot on an open stream with the loaded record, or `Connection` |
| Library.Connect | src/pulurobot/pulurobot.rs:8-15 | the stream opens, or the error is `Connection` and the robot is unchanged |
| Library.Disconnect | src/pulurobot/pulurobot.rs:40-42 | the stream is closed and nothing else changes |
| Library.Send | src/pulurobot/pulurobot.rs:84-106 | a failed connect is `Connection` with nothing written; a failed write is `Write` with the stream left open and nothing written; `Ok` exactly when both succeed, and then one frame, read back as the command, was written and the stream is closed |
| Library.SendLeavesStreamOpenOnlyOnWriteFailure | src/pulurobot/pulurobot.rs:98-105 | starting closed, a command leaves the stream open exactly when the connect succeeded and the write failed |
| Library.Free | src/pulurobot/pulurobot.rs:84-106 | on success exactly `[58,0,1,5]` was appended |
| Library.Localize | src/pulurobot/pulurobot.rs:160-182 | on success exactly `[58,0,1,3]` was appended |
| Library.Stop | src/pulurobot/pulurobot.rs:184-205 | on success exactly `[58,0,1,8]` was appended |
| Library.Goto | src/pulurobot/pulurobot.rs:122-158 | on success one twelve-byte frame `56,0,9,…,0` was appended, whose bytes 3..7 and 7..11 read back as x and y |
| Library.GotoPoint | src/pulurobot/pulurobot.rs:109-119 | an unknown name is `Read` with nothing done; any failure of `goto`, a failed connect included, is `Write`; the record is never changed; on success the stored pair of the point was sent as one frame appended after the earlier ones, and the stream is closed |
| Library.GetLocation | src/pulurobot/pulurobot.rs:44-77 | a failed connect is `Connection`; otherwise, when a whole position frame of 11 bytes or more arrives, it returns `Ok` with that frame's location and a closed stream; it panics exactly when there is no such frame (the end of the stream is reached) or that frame is shorter than 11 bytes (the slice panics) |
| Library.SaveLocation | src/pulurobot/pulurobot.rs:207-219 | panics and `Connection` of `get_location` pass through unchanged; after a location is read the point is stored in any case, and the result is `Ok` exactly when the record is written, `Write` otherwise; nothing is written to the robot, and after a successful connect the stream ends closed |
| Library.GetStateNotImplemented | src/pulurobot/pulurobot.rs:80-82 | `get_state` always fails with `NotYetImplemented` |
| ConsoleLibrary.Connect | src/console/pulurobot/pulurobot.rs:7-18 | a robot on a fresh stream exactly when the connect succeeds, else `Connection` |
| ConsoleLibrary.Disconnect | src/console/pulurobot/pulurobot.rs:20-22 | the stream is closed and nothing written changes |
| ConsoleLibrary.Send | src/console/pulurobot/pulurobot.rs:104-116 | `Ok` exactly when the stream is open and the write succeeds, with one frame appended that reads back as the command; otherwise `Write` and nothing changes; on a stream shut down by `disconnect` every write fails; the stream is never opened or closed |
| ConsoleLibrary.Free | src/console/pulurobot/pulurobot.rs:104-116 | succeeds exactly when the stream is open and the write succeeds, and then exactly `[58,0,1,5]` was appended |
| ConsoleLibrary.Localize | src/console/pulurobot/pulurobot.rs:144-156 | succeeds exactly when the stream is open and the write succeeds, and then exactly `[58,0,1,3]` was appended |
| ConsoleLibrary.Stop | src/console/pulurobot/pulurobot.rs:158-170 | succeeds exactly when the stream is open and the write succeeds, and then exactly `[58,0,1,8]` was appended |
| ConsoleLibrary.Goto | src/console/pulurobot/pulurobot.rs:118-142 | succeeds exactly when the stream is open and the write succeeds, and then the twelve-byte "go to" frame was appended and reads back as x and y |
| ConsoleLibrary.StubsNotImplemented | src/console/pulurobot/pulurobot.rs:24-102 | `get_location`, `listen` and `get_state` always fail with `NotYetImplemented` |
| CliConfig.LookupPoint | src/console/main.rs:323-347 | "a" and "b" need both coordinates present and panic otherwise; any other name yields nothing to send |
| CliConfig.StorePoint | src/console/main.rs:458-464 | the saved name reads back as the new pair, every other name reads as before, the connection fields are untouched, and an unknown name changes nothing |
| ConsoleCli.Transmit | src/console/main.rs:284-307 | panics exactly when the connect fails; a failed write is only printed and sends nothing; otherwise the frame written reads back as the command |
| ConsoleCli.HandleFree | src/console/main.rs:284-307 | writes `[58,0,1,5]` |
| ConsoleCli.HandleLocalize | src/console/main.rs:374-396 | writes `[58,0,1,3]` |
| ConsoleCli.HandleStop | src/console/main.rs:398-420 | writes `[58,0,1,8]` |
| ConsoleCli.HandleGotoLocation | src/console/main.rs:309-372 | connects first and panics if it cannot; an unknown name writes nothing; a missing coordinate panics; otherwise the frame written reads back as the stored point |
| ConsoleCli.HandleSaveLocation | src/console/main.rs:422-465 | a failed connect panics; it returns exactly when a whole position frame of 11 bytes or more arrives; the end of the stream and a short position frame panic; the point read is stored under the name and nothing else changes |
| ConsoleCli.HandleListen | src/console/main.rs:191-282 | panics exactly when the connect fails; otherwise frames are delivered in order with the console decoder, polled after each, and none is announced |
| RobotCli.HandleListen | src/robot/main.rs:132-162 | never cancelled; frames are delivered in order with the older decoder; after the stream ends it never stops, and only a short position payload ends it with a panic |
| RobotCli.HandleGotoLocation | src/robot/main.rs:164-215 | an unknown name writes nothing; a missing coordinate panics; a failed write panics; otherwise the frame written reads back as the stored point |
| RobotCli.HandleSaveLocation | src/robot/main.rs:217-270 | runs for ever exactly when no position frame arrives; panics exactly on a short position frame; otherwise stores the point under the name and changes nothing else |
| MainCli.HandleListen | src/main.rs:139-237 | panics exactly when the connect fails; otherwise frames are delivered in order with the full decoder, and a decode panic happens exactly on a payload shorter than its branch needs |
| MainCli.TofFramesAnnounced | src/main.rs:197-199 | exactly the delivered frames of opcode 138 are the bare announcement |

## Left out

- Sockets: `TcpStream::connect` and `connect_timeout` (with its five-second timeout), `set_write_timeout`, `set_nonblocking`, `shutdown` and the address `parse().unwrap()`. Each connect or write outcome is one boolean input. A failing `shutdown(..).unwrap()` is not modelled.
- Partial writes: `write_all` either delivers the whole frame or fails. The single `write` of src/robot/main.rs is treated the same way.
- The listener thread and its `mpsc` channel. The model keeps the sequential loop, with the outcome of each poll as an input.
- The floating-point angle conversion `angle / 65536.0 * 360.0`. The model keeps the raw `i16` angle.
- Printing. The listeners print what they decode; the model returns the decoded frames instead.
- Configuration persistence: JSON reading and writing (`from_file`, `write`, `create` in src/pulurobot/config.rs, and the config-file handling in each client's `main` and "save" handler). Writing the record is one boolean input in `Library.SaveLocation`. The command-line "save" handlers return the updated record.
- Library.FromConfig: loading the record from its file, and the errors doing so, are not modelled. It starts from a loaded record.
- The interactive loops and the setup wizards (src/setup.rs, src/setup/main.rs), the read-eval loops of the `main` functions, and the scratch programs src/test/main.rs and src/console/test.rs.
- old_config_src and the error.rs files, which hold only constructors. src/console/pulurobot/mod.rs declares the same types as `RobotTypes`.
- RobotCli.HandleListen and RobotCli.HandleSaveLocation: src/robot/main.rs ignores read errors. The model treats every stream that ends before the frame the loop needs as running for ever (`Diverges`, or `EndOfStream` for the listener), and delivers nothing of a frame that is cut short. Once the stream has ended, every later read leaves a zero-filled header, opcode 0, which is passed over. When the stream ends between frames, the model therefore matches the source. It also matches when a frame is cut whose opcode the loop passes over: any opcode but 130 and 140 in "listen", and any opcode but 130 in "save". Three outcomes of a cut frame are not modelled. The header of a cut frame keeps the bytes read and zeros after them, and so does its payload.
  - A cut inside a frame of opcode 140 still makes "listen" announce it (src/robot/main.rs:156-157) before the loop moves on to zero headers.
  - A cut inside a frame of opcode 130 whose declared length is below 11 panics on a slice: `&buf[0..2]`, `&buf[2..7]` or `&buf[6..11]` at src/robot/main.rs:144-146 in "listen", and `&buf[2..7]` or `&buf[6..11]` at :236-237 in "save".
  - A cut inside a frame of opcode 130 whose declared length is 11 or more yields a point read from the zero-padded buffer. "listen" reports it and goes on, and "save" returns and stores it (src/robot/main.rs:231-252). For example, a cut after `[130, b1]` with b1 ≥ 1 gives a zero payload of 256·b1 bytes and the point (0, 0).
  - The model does not promise these outcomes because what `read_exact` leaves in its buffer after a failed read is unspecified.
- MainCli.HandleListen: the end of the stream is `EndOfStream` here. In the source the `unwrap` of the read panics the listening thread, and the main thread is unaffected.
- ConsoleCli.HandleListen: the end of the stream is `EndOfStream` here. In the source the `unwrap`s of the reads at src/console/main.rs:207 and :212 panic the listening thread, and the main thread is unaffected.
- Commands.Decode is the robot's side of the protocol. It is a reference reading of the client's frames, not code of this client.

=== FILE: bits.dfy ===
/** Fixed-width integers and the byte arithmetic the client performs on them.

    Rust's `x >> k` on a signed integer is an arithmetic shift, i.e. floor division
    by 2^k, which is what Dafny's `/` computes for a positive divisor; `v as u8`
    keeps the low eight bits of the two's-complement value, which is Dafny's `% 256`
    (never negative). The bitwise operators `&` and `|` are defined bit by bit. */
module Bits {

  type byte = b: int | 0 <= b < 0x100
  type i8 = x: int | -0x80 <= x < 0x80
  type i16 = x: int | -0x8000 <= x < 0x8000
  type i32 = x: int | -0x8000_0000 <= x < 0x8000_0000

  function Pow2(k: nat): (r: nat)
    ensures r >= 1
  {
    if k == 0 then 1 else 2 * Pow2(k - 1)
  }

  /** Bitwise `a & b` on non-negative integers. */
  function And(a: nat, b: nat): (r: nat)
    ensures r <= a && r <= b
    decreases a
  {
    if a == 0 || b == 0 then 0
    else 2 * And(a / 2, b / 2) + (if a % 2 == 1 && b % 2 == 1 then 1 else 0)
  }

  /** Bitwise `a | b` on non-negative integers. */
  function Or(a: nat, b: nat): (r: nat)
    ensures a <= r && b <= r && r <= a + b
    decreases a + b
  {
    if a == 0 then b
    else if b == 0 then a
    else 2 * Or(a / 2, b / 2) + (if a % 2 == 1 || b % 2 == 1 then 1 else 0)
  }

  /** `v as u8`: the low eight bits. */
  function AsU8(v: int): byte
  {
    v % 0x100
  }

  /** `x & 1` is the lowest bit. */
  lemma AndOne(b: nat)
    ensures And(b, 1) == b % 2
  {
  }

  /** `b & 2` is either 0 or 2, never 1. */
  lemma {:induction false} AndTwo(b: nat)
    ensures And(b, 2) == 2 * ((b / 2) % 2)
  {
    if b != 0 {
      AndOne(b / 2);
    }
  }

  /** Or-ing a value below 2^k into a number shifted left by k bits is addition. */
  lemma {:induction false} OrLowBits(a: nat, lo: nat, k: nat)
    requires lo < Pow2(k)
    ensures Or(a * Pow2(k), lo) == a * Pow2(k) + lo
  {
    var h := a * Pow2(k);
    if k == 0 || h == 0 || lo == 0 {
    } else {
      var h' := a * Pow2(k - 1);
      assert h == 2 * h';
      assert h / 2 == h' && h % 2 == 0;
      OrLowBits(a, lo / 2, k - 1);
      assert Or(h, lo) == 2 * Or(h', lo / 2) + lo % 2;
    }
  }

  /** `(hi << 8) | lo` for two bytes is the big-endian 16-bit value. */
  lemma OrShiftedByte(hi: byte, lo: byte)
    ensures Or((hi as int) * 0x100, lo) == (hi as int) * 0x100 + lo
  {
    assert Pow2(8) == 0x100;
    OrLowBits(hi, lo, 8);
  }

  /** The four bytes of `x` as the client writes them:
      `(x>>24) as u8, (x>>16) as u8, (x>>8) as u8, (x>>0) as u8`. */
  function BeI32Bytes(x: i32): seq<byte>
  {
    [AsU8(x / 0x100_0000), AsU8(x / 0x1_0000), AsU8(x / 0x100), AsU8(x)]
  }

  /** The 16-bit counterpart, used to build payloads the robot would send. */
  function BeI16Bytes(x: i16): seq<byte>
  {
    [AsU8(x / 0x100), AsU8(x)]
  }

  /** `read_i32::<BigEndian>()`: the first four bytes, two's complement. */
  function ReadI32(b: seq<byte>): i32
    requires |b| >= 4
  {
    var u := (b[0] as int) * 0x100_0000 + (b[1] as int) * 0x1_0000 + (b[2] as int) * 0x100 + b[3];
    if u >= 0x8000_0000 then u - 0x1_0000_0000 else u
  }

  /** `read_i16::<BigEndian>()`: the first two bytes, two's complement. */
  function ReadI16(b: seq<byte>): i16
    requires |b| >= 2
  {
    var u := (b[0] as int) * 0x100 + b[1];
    if u >= 0x8000 then u - 0x1_0000 else u
  }

  /** Shifting right by 16 is shifting right by 8 twice. */
  lemma ShiftTwice(x: int)
    ensures x / 0x1_0000 == (x / 0x100) / 0x100
  {
    var q1 := x / 0x100;
    var q2 := q1 / 0x100;
    assert x == q2 * 0x1_0000 + (q1 % 0x100) * 0x100 + x % 0x100;
  }

  /** Shifting right by 24 is shifting right by 16, then by 8. */
  lemma ShiftThrice(x: int)
    ensures x / 0x100_0000 == (x / 0x1_0000) / 0x100
  {
    var q2 := x / 0x1_0000;
    var q3 := q2 / 0x100;
    assert x == q3 * 0x100_0000 + (q2 % 0x100) * 0x1_0000 + x % 0x1_0000;
  }

  /** Reading back the bytes the client writes recovers every `i32`. */
  lemma I32RoundTrip(x: i32)
    ensures ReadI32(BeI32Bytes(x)) == x
  {
    ShiftTwice(x);
    ShiftThrice(x);
    var q1 := x / 0x100;
    var q2 := q1 / 0x100;
    var q3 := q2 / 0x100;
    assert x == q1 * 0x100 + x % 0x100;
    assert q1 == q2 * 0x100 + q1 % 0x100;
    assert q2 == q3 * 0x100 + q2 % 0x100;
    assert x == q3 * 0x100_0000 + (q2 % 0x100) * 0x1_0000 + (q1 % 0x100) * 0x100 + x % 0x100;
    assert -0x80 <= q3 < 0x80;
    var b := BeI32Bytes(x);
    assert b[0] == q3 % 0x100 && b[1] == q2 % 0x100 && b[2] == q1 % 0x100 && b[3] == x % 0x100;
  }

  /** Conversely, every four bytes are the encoding of the `i32` they read as. */
  lemma I32BytesOfRead(b: seq<byte>)
    requires |b| >= 4
    ensures BeI32Bytes(ReadI32(b)) == b[..4]
  {
    var x := ReadI32(b);
    var t := (b[1] as int) * 0x1_0000 + (b[2] as int) * 0x100 + b[3];
    var h: int := if b[0] >= 0x80 then (b[0] as int) - 0x100 else b[0];
    assert x == h * 0x100_0000 + t;
    assert 0 <= t < 0x100_0000;
    assert x / 0x100_0000 == h;
    assert x / 0x1_0000 == h * 0x100 + b[1] by {
      assert x == (h * 0x100 + b[1]) * 0x1_0000 + ((b[2] as int) * 0x100 + b[3]);
    }
    assert x / 0x100 == h * 0x1_0000 + (b[1] as int) * 0x100 + b[2] by {
      assert x == (h * 0x1_0000 + (b[1] as int) * 0x100 + b[2]) * 0x100 + b[3];
    }
  }

  lemma I16RoundTrip(x: i16)
    ensures ReadI16(BeI16Bytes(x)) == x
  {
  }

  lemma I16BytesOfRead(b: seq<byte>)
    requires |b| >= 2
    ensures BeI16Bytes(ReadI16(b)) == b[..2]
  {
  }

  /** Reading looks only at the first bytes, so a longer slice reads the same. */
  lemma ReadI32Prefix(b: seq<byte>, c: seq<byte>)
    requires |b| >= 4 && |c| >= 4 && b[..4] == c[..4]
    ensures ReadI32(b) == ReadI32(c)
  {
    assert b[0] == c[0] && b[1] == c[1] && b[2] == c[2] && b[3] == c[3] by {
      assert b[..4][0] == b[0] && b[..4][1] == b[1] && b[..4][2] == b[2] && b[..4][3] == b[3];
      assert c[..4][0] == c[0] && c[..4][1] == c[1] && c[..4][2] == c[2] && c[..4][3] == c[3];
    }
  }
}

=== FILE: cli_config.dfy ===
/** The configuration record of the two command-line clients (src/console/main.rs
    and src/robot/main.rs), whose point coordinates stay `None` until first saved,
    and the point logic both clients repeat in their "goto" and "save" handlers. */
module CliConfig {
  import opened Bits
  import opened Outcomes

  datatype Config = Config(
    name: string,
    manufacturer: string,
    robotAddress: string,
    robotPort: string,
    locationAX: Option<i32>,
    locationAY: Option<i32>,
    locationBX: Option<i32>,
    locationBY: Option<i32>)

  predicate SameConnection(c: Config, d: Config)
  {
    c.name == d.name && c.manufacturer == d.manufacturer
    && c.robotAddress == d.robotAddress && c.robotPort == d.robotPort
  }

  /** The lookup at the top of "goto": for "a" or "b" both coordinates must be
      present, else the client panics; any other name yields nothing to send. */
  function LookupPoint(c: Config, name: string): (r: Run<Option<(i32, i32)>>)
    ensures !r.Diverges?
    ensures name != "a" && name != "b" ==> r == Returns(None)
    ensures r.Panics? ==> r.why == MissingCoordinate
    ensures name == "a" ==> (r.Returns? <==> c.locationAX.Some? && c.locationAY.Some?)
    ensures name == "b" ==> (r.Returns? <==> c.locationBX.Some? && c.locationBY.Some?)
    ensures r.Returns? && r.value.Some? ==> name == "a" || name == "b"
  {
    if name == "a" then
      match (c.locationAX, c.locationAY)
      case (Some(x), Some(y)) => Returns(Some((x, y)))
      case _ => Panics(MissingCoordinate)
    else if name == "b" then
      match (c.locationBX, c.locationBY)
      case (Some(x), Some(y)) => Returns(Some((x, y)))
      case _ => Panics(MissingCoordinate)
    else Returns(None)
  }

  /** The update at the end of "save": "a" sets only the a fields to `Some`, "b" only
      the b fields, and any other name changes nothing. */
  function StorePoint(c: Config, name: string, x: i32, y: i32): (d: Config)
    ensures SameConnection(c, d)
    ensures name == "a" || name == "b" ==> LookupPoint(d, name) == Returns(Some((x, y)))
    ensures forall other :: other != name ==> LookupPoint(d, other) == LookupPoint(c, other)
    ensures name != "a" && name != "b" ==> d == c
  {
    if name == "a" then c.(locationAX := Some(x), locationAY := Some(y))
    else if name == "b" then c.(locationBX := Some(x), locationBY := Some(y))
    else c
  }
}

=== FILE: commands.dfy ===
/** Outbound command frames.

    Three commands share opcode 58 and a one-byte payload that selects the mode
    (5 free, 3 localize, 8 stop); "go to" uses opcode 56 with a nine-byte payload:
    x and y as big-endian two's-complement 32-bit integers and a trailing zero.
    The byte layouts are written out literally in every front end of the client;
    `Encode` is that layout, and `Decode` is the robot's reading of it. */
module Commands {
  import opened Bits
  import opened Outcomes
  import opened Framing

  datatype Command = Free | Localize | Stop | Goto(x: i32, y: i32)

  const ModeOpcode: byte := 58
  const GotoOpcode: byte := 56

  /** The bytes the client writes for a command. */
  function Encode(c: Command): (r: seq<byte>)
    ensures |r| >= 3 && DecodeHeader(r[..3]).length == |r| - 3
    ensures DecodeHeader(r[..3]).opcode == (if c.Goto? then GotoOpcode else ModeOpcode)
  {
    match c
    case Free => [58, 0, 1, 5]
    case Localize => [58, 0, 1, 3]
    case Stop => [58, 0, 1, 8]
    case Goto(x, y) => [56, 0, 9] + BeI32Bytes(x) + BeI32Bytes(y) + [0]
  }

  /** The command a frame carries, as the receiving side reads it. */
  function Decode(b: seq<byte>): Option<Command>
  {
    if |b| == 4 && b[0] == ModeOpcode && b[1] == 0 && b[2] == 1 then
      if b[3] == 5 then Some(Free)
      else if b[3] == 3 then Some(Localize)
      else if b[3] == 8 then Some(Stop)
      else None
    else if |b| == 12 && b[0] == GotoOpcode && b[1] == 0 && b[2] == 9 && b[11] == 0 then
      Some(Goto(ReadI32(b[3..7]), ReadI32(b[7..11])))
    else None
  }

  /** Every command, including "go to" with any pair of `i32`, is read back exactly. */
  lemma EncodeDecode(c: Command)
    ensures Decode(Encode(c)) == Some(c)
  {
    if c.Goto? {
      var b := Encode(c);
      assert b[3..7] == BeI32Bytes(c.x);
      assert b[7..11] == BeI32Bytes(c.y);
      I32RoundTrip(c.x);
      I32RoundTrip(c.y);
    }
  }

  /** A frame the receiver accepts as a command is exactly the client's encoding of it. */
  lemma DecodeEncode(b: seq<byte>, c: Command)
    requires Decode(b) == Some(c)
    ensures Encode(c) == b
  {
    if c.Goto? {
      I32BytesOfRead(b[3..7]);
      I32BytesOfRead(b[7..11]);
      assert b[3..7][..4] == b[3..7] && b[7..11][..4] == b[7..11];
      assert b == [56, 0, 9] + b[3..7] + b[7..11] + [0];
    }
  }

  /** Distinct commands never share an encoding. */
  lemma EncodeInjective(c: Command, d: Command)
    requires Encode(c) == Encode(d)
    ensures c == d
  {
    EncodeDecode(c);
    EncodeDecode(d);
  }

  /** The fixed frames of the three mode commands. */
  lemma ModeFrames()
    ensures Encode(Free) == [58, 0, 1, 5]
    ensures Encode(Localize) == [58, 0, 1, 3]
    ensures Encode(Stop) == [58, 0, 1, 8]
  {
  }

  /** A "go to" frame with a negative coordinate: x = 220, y = -509. */
  lemma GotoVector()
    ensures Encode(Goto(220, -509)) == [56, 0, 9, 0, 0, 0, 220, 0xFF, 0xFF, 0xFE, 3, 0]
  {
  }
}

=== FILE: console_cli.dfy ===
/** The command handlers of src/console/main.rs. Each handler opens its own
    connection (panicking if it cannot), does its work, and shuts the connection
    down; a failed write is only printed. A handler's value is what it put on the
    wire, or for "save" the updated record. */
module ConsoleCli {
  import opened Bits
  import opened Outcomes
  import opened Commands
  import opened Framing
  import opened Telemetry
  import opened Listener
  import opened Scan
  import opened CliConfig

  /** Connect, `write_all` the command, shut down. */
  function Transmit(c: Command, connects: bool, writes: bool): (r: Run<seq<byte>>)
    ensures r.Panics? <==> !connects
    ensures r.Panics? ==> r.why == ConnectFailed
    ensures r.Returns? ==> (r.value == [] <==> !writes)
    ensures r.Returns? && writes ==> Decode(r.value) == Some(c)
  {
    if !connects then Panics(ConnectFailed)
    else if !writes then Returns([])
    else
      EncodeDecode(c);
      Returns(Encode(c))
  }

  function HandleFree(connects: bool, writes: bool): (r: Run<seq<byte>>)
    ensures r.Panics? <==> !connects
    ensures r.Returns? && writes ==> r.value == [58, 0, 1, 5]
  {
    Transmit(Command.Free, connects, writes)
  }

  function HandleLocalize(connects: bool, writes: bool): (r: Run<seq<byte>>)
    ensures r.Panics? <==> !connects
    ensures r.Returns? && writes ==> r.value == [58, 0, 1, 3]
  {
    Transmit(Command.Localize, connects, writes)
  }

  function HandleStop(connects: bool, writes: bool): (r: Run<seq<byte>>)
    ensures r.Panics? <==> !connects
    ensures r.Returns? && writes ==> r.value == [58, 0, 1, 8]
  {
    Transmit(Command.Stop, connects, writes)
  }

  /** "goto a|b": connect first, then look the point up; an unknown name returns
      with nothing written, a missing coordinate panics, and otherwise the "go to"
      frame of the stored point is written. */
  function HandleGotoLocation(config: Config, name: string, connects: bool, writes: bool): (r: Run<seq<byte>>)
    ensures !connects ==> r == Panics(ConnectFailed)
    ensures connects && name != "a" && name != "b" ==> r == Returns([])
    ensures connects && LookupPoint(config, name).Panics? ==> r == Panics(MissingCoordinate)
    ensures connects && LookupPoint(config, name).Returns? && LookupPoint(config, name).value.Some? ==>
      var p := LookupPoint(config, name).value.value;
      && r.Returns?
      && (writes ==> Decode(r.value) == Some(Command.Goto(p.0, p.1)))
      && (!writes ==> r.value == [])
  {
    if !connects then Panics(ConnectFailed)
    else
      match LookupPoint(config, name)
      case Returns(None) => Returns([])
      case Returns(Some((x, y))) => Transmit(Command.Goto(x, y), true, writes)
      case Panics(why) => Panics(why)
      case Diverges => Diverges
  }

  /** "save a|b": connect, read the first position frame, shut down, store the point. */
  function HandleSaveLocation(config: Config, name: string, connects: bool, incoming: seq<byte>): (r: Run<Config>)
    ensures !connects ==> r == Panics(ConnectFailed)
    ensures connects ==> (r.Returns? <==> PositionIn(ParseAll(incoming)).Found?)
    ensures connects && PositionIn(ParseAll(incoming)) == Exhausted ==> r == Panics(StreamEnded)
    ensures connects && PositionIn(ParseAll(incoming)) == ShortPosition ==> r == Panics(PayloadTooShort(130))
    ensures r.Returns? ==>
      var loc := PositionIn(ParseAll(incoming)).loc;
      && SameConnection(config, r.value)
      && ((name == "a" || name == "b") ==> LookupPoint(r.value, name) == Returns(Some((loc.x, loc.y))))
      && (forall other :: other != name ==> LookupPoint(r.value, other) == LookupPoint(config, other))
  {
    if !connects then Panics(ConnectFailed)
    else
      match FirstPosition(incoming)
      case Exhausted => Panics(StreamEnded)
      case ShortPosition => Panics(PayloadTooShort(130))
      case Found(loc) => Returns(StorePoint(config, name, loc.x, loc.y))
  }

  /** "listen": connect (else panic), then the listen loop with this client's decoder,
      which passes over opcode 138 without naming it. */
  function HandleListen(connects: bool, incoming: seq<byte>, stop: nat -> bool): (r: Run<ListenRun>)
    ensures r.Panics? <==> !connects
    ensures r.Returns? ==>
      && DeliveredInOrder(ConsoleDecode, incoming, r.value.delivered)
      && PolledAfterEachFrame(stop, 0, r.value)
      && EndedAtFault(ConsoleDecode, incoming, r.value)
      && forall i :: 0 <= i < |r.value.delivered| ==> !r.value.delivered[i].Announced?
  {
    if !connects then Panics(ConnectFailed)
    else
      var run := Listen(ConsoleDecode, incoming, stop, 0);
      assert DeliveredInOrder(ConsoleDecode, incoming, run.delivered);
      Returns(run)
  }
}

=== FILE: console_library.dfy ===
/** The robot library of src/console/pulurobot: `connect` builds a robot around an
    open stream, and each command only writes its frame on that stream. */
module ConsoleLibrary {
  import opened Bits
  import opened Outcomes
  import opened Commands
  import opened RobotTypes
  import Scan
  import Library

  datatype Robot = Robot(link: Library.Link, written: seq<seq<byte>>)

  datatype Reply = Reply(result: Result<(), RobotError>, robot: Robot)

  /** `connect(ipaddr, port)`: a robot on a fresh stream, or `Connection`. */
  function Connect(connects: bool): (r: Result<Robot, RobotError>)
    ensures r.Ok? <==> connects
    ensures r.Ok? ==> r.value.link == Library.Up && r.value.written == []
    ensures r.Err? ==> r.error == Connection
  {
    if connects then Ok(Robot(Library.Up, [])) else Err(Connection)
  }

  function Disconnect(r: Robot): (d: Robot)
    ensures d.link == Library.Down && d.written == r.written
  {
    r.(link := Library.Down)
  }

  /** The body shared by `free`, `goto`, `localize` and `stop`: `write_all` on the
      robot's stream, `Ok` exactly when the write succeeds and `Write` otherwise; the
      stream is neither opened nor closed. A stream shut down by `disconnect` refuses
      every write, whatever the network would do. */
  function Send(r: Robot, c: Command, writes: bool): (rep: Reply)
    ensures rep.result.Ok? <==> writes && r.link == Library.Up
    ensures r.link == Library.Down ==> rep == Reply(Err(Write), r)
    ensures rep.result.Err? ==> rep.result.error == Write && rep.robot == r
    ensures rep.robot.link == r.link
    ensures rep.result.Ok? ==>
      && |rep.robot.written| == |r.written| + 1
      && rep.robot.written[..|r.written|] == r.written
      && Decode(rep.robot.written[|r.written|]) == Some(c)
  {
    if writes && r.link == Library.Up then
      EncodeDecode(c);
      var w := r.written + [Encode(c)];
      assert w[..|r.written|] == r.written;
      Reply(Ok(()), r.(written := w))
    else Reply(Err(Write), r)
  }

  function Free(r: Robot, writes: bool): (rep: Reply)
    ensures rep.result.Ok? <==> writes && r.link == Library.Up
    ensures rep.result.Ok? ==> rep.robot.written == r.written + [[58, 0, 1, 5]]
  {
    Send(r, Command.Free, writes)
  }

  function Localize(r: Robot, writes: bool): (rep: Reply)
    ensures rep.result.Ok? <==> writes && r.link == Library.Up
    ensures rep.result.Ok? ==> rep.robot.written == r.written + [[58, 0, 1, 3]]
  {
    Send(r, Command.Localize, writes)
  }

  function Stop(r: Robot, writes: bool): (rep: Reply)
    ensures rep.result.Ok? <==> writes && r.link == Library.Up
    ensures rep.result.Ok? ==> rep.robot.written == r.written + [[58, 0, 1, 8]]
  {
    Send(r, Command.Stop, writes)
  }

  /** `goto(x, y)`: the same twelve-byte frame as the main library, read back as x, y. */
  function Goto(r: Robot, x: i32, y: i32, writes: bool): (rep: Reply)
    ensures rep.result.Ok? <==> writes && r.link == Library.Up
    ensures rep.result.Ok? ==> |rep.robot.written| == |r.written| + 1
    ensures rep.result.Ok? ==>
      var w := rep.robot.written[|r.written|];
      && rep.robot.written == r.written + [w]
      && |w| == 12 && w[..3] == [56, 0, 9] && w[11] == 0
      && ReadI32(w[3..7]) == x && ReadI32(w[7..11]) == y
  {
    var rep := Send(r, Command.Goto(x, y), writes);
    if rep.result.Ok? then
      assert rep.robot.written == rep.robot.written[..|r.written|] + [rep.robot.written[|r.written|]];
      rep
    else rep
  }

  function GetLocation(): Result<Scan.Location, RobotError>
  {
    Err(NotYetImplemented)
  }

  function Listen(r: Robot): Result<string, RobotError>
  {
    Err(NotYetImplemented)
  }

  function GetState(): Result<RobotState, RobotError>
  {
    Err(NotYetImplemented)
  }

  /** The three reading operations are stubs that always fail with `NotYetImplemented`. */
  lemma StubsNotImplemented(r: Robot)
    ensures GetLocation() == Err(NotYetImplemented)
    ensures Listen(r) == Err(NotYetImplemented)
    ensures GetState() == Err(NotYetImplemented)
  {
  }
}

=== FILE: framing.dfy ===
/** The length-prefixed framing shared by both directions of the protocol.

    Every frame is a three-byte header, an opcode followed by a big-endian 16-bit
    length, and then exactly `length` payload bytes. A reader takes the header, then
    the whole payload, before it looks at the opcode, so the next header always starts
    right after the payload whether or not the opcode was understood. */
module Framing {
  import opened Bits
  import opened Outcomes

  datatype Header = Header(opcode: byte, length: nat)

  /** A frame as it travels on the wire, before its payload is interpreted. */
  datatype RawFrame = RawFrame(opcode: byte, payload: seq<byte>)

  /** A payload whose length fits the 16-bit length field. */
  predicate WellSized(f: RawFrame)
  {
    |f.payload| < 0x1_0000
  }

  predicate AllWellSized(fs: seq<RawFrame>)
  {
    forall i :: 0 <= i < |fs| ==> WellSized(fs[i])
  }

  function EncodeHeader(opcode: byte, length: nat): seq<byte>
    requires length < 0x1_0000
  {
    [opcode, length / 0x100, length % 0x100]
  }

  /** `cmd = buf[0]; len = ((buf[1] as i32) << 8) | (buf[2] as i32)`. */
  function DecodeHeader(h: seq<byte>): (r: Header)
    requires |h| == 3
    ensures r.opcode == h[0]
    ensures r.length == (h[1] as int) * 0x100 + h[2] && r.length < 0x1_0000
  {
    OrShiftedByte(h[1], h[2]);
    Header(h[0], Or((h[1] as int) * 0x100, h[2]))
  }

  /** Every length in 0..65535 survives the header. */
  lemma HeaderRoundTrip(opcode: byte, length: nat)
    requires length < 0x1_0000
    ensures DecodeHeader(EncodeHeader(opcode, length)) == Header(opcode, length)
  {
  }

  /** Every three bytes are the encoding of the header they decode to. */
  lemma HeaderBytesOfDecode(h: seq<byte>)
    requires |h| == 3
    ensures EncodeHeader(DecodeHeader(h).opcode, DecodeHeader(h).length) == h
  {
  }

  function Serialize(f: RawFrame): seq<byte>
    requires WellSized(f)
  {
    EncodeHeader(f.opcode, |f.payload|) + f.payload
  }

  function SerializeAll(fs: seq<RawFrame>): seq<byte>
    requires AllWellSized(fs)
  {
    if fs == [] then [] else Serialize(fs[0]) + SerializeAll(fs[1..])
  }

  /** One pass of the read loop: `read_exact` of the header, then `read_exact` of
      `length` payload bytes. `None` when the stream ends before the frame is whole. */
  function ReadFrame(s: seq<byte>): (r: Option<(RawFrame, seq<byte>)>)
    ensures r.Some? ==> WellSized(r.value.0) && s == Serialize(r.value.0) + r.value.1
    ensures r.None? <==> |s| < 3 || |s| < 3 + (s[1] as int) * 0x100 + s[2]
  {
    if |s| < 3 then None
    else
      var h := DecodeHeader(s[..3]);
      if |s| < 3 + h.length then None
      else
        var f := RawFrame(h.opcode, s[3..3 + h.length]);
        HeaderBytesOfDecode(s[..3]);
        assert s == s[..3] + f.payload + s[3 + h.length..];
        Some((f, s[3 + h.length..]))
  }

  /** A serialized frame is read back whole, and what follows is left untouched. */
  lemma ReadSerialized(f: RawFrame, rest: seq<byte>)
    requires WellSized(f)
    ensures ReadFrame(Serialize(f) + rest) == Some((f, rest))
  {
    var s := Serialize(f) + rest;
    HeaderRoundTrip(f.opcode, |f.payload|);
    assert s[..3] == EncodeHeader(f.opcode, |f.payload|);
    assert s[3..3 + |f.payload|] == f.payload;
    assert s[3 + |f.payload|..] == rest;
  }

  /** Hence the reader stops short only when no whole frame is at the front. */
  lemma ReadFrameNoneMeansNoFrame(s: seq<byte>, f: RawFrame)
    requires ReadFrame(s).None? && WellSized(f)
    ensures !(Serialize(f) <= s)
  {
  }

  /** All whole frames at the front of a stream, in order. */
  function ParseAll(s: seq<byte>): (fs: seq<RawFrame>)
    ensures AllWellSized(fs) && SerializeAll(fs) <= s
    decreases |s|
  {
    match ReadFrame(s)
    case None => []
    case Some((f, rest)) =>
      var tail := ParseAll(rest);
      assert ([f] + tail)[1..] == tail;
      [f] + tail
  }

  /** The parse stops only where no whole frame is left to read. */
  lemma {:induction false} ParseAllLeavesNoFrame(s: seq<byte>)
    ensures ReadFrame(s[|SerializeAll(ParseAll(s))|..]).None?
    decreases |s|
  {
    match ReadFrame(s)
    case None =>
    case Some((f, rest)) =>
      ParseAllLeavesNoFrame(rest);
      var tail := ParseAll(rest);
      var fs := [f] + tail;
      assert ParseAll(s) == fs;
      assert fs[1..] == tail;
      assert SerializeAll(fs) == Serialize(f) + SerializeAll(tail);
      assert s[|SerializeAll(fs)|..] == rest[|SerializeAll(tail)|..];
  }

  /** Frames sent one after another are parsed back in the same order. */
  lemma {:induction false} ParseSerialized(fs: seq<RawFrame>, tail: seq<byte>)
    requires AllWellSized(fs) && ReadFrame(tail).None?
    ensures ParseAll(SerializeAll(fs) + tail) == fs
    decreases |fs|
  {
    if fs == [] {
    } else {
      assert SerializeAll(fs) + tail == Serialize(fs[0]) + (SerializeAll(fs[1..]) + tail);
      ReadSerialized(fs[0], SerializeAll(fs[1..]) + tail);
      ParseSerialized(fs[1..], tail);
      assert fs == [fs[0]] + fs[1..];
    }
  }

  /** Whatever follows, frames sent first are parsed first. */
  lemma {:induction false} ParseSerializedPrefix(fs: seq<RawFrame>, tail: seq<byte>)
    requires AllWellSized(fs)
    ensures fs <= ParseAll(SerializeAll(fs) + tail)
    decreases |fs|
  {
    if fs != [] {
      assert SerializeAll(fs) + tail == Serialize(fs[0]) + (SerializeAll(fs[1..]) + tail);
      ReadSerialized(fs[0], SerializeAll(fs[1..]) + tail);
      ParseSerializedPrefix(fs[1..], tail);
      assert fs == [fs[0]] + fs[1..];
    }
  }
}

=== FILE: library.dfy ===
/** The robot library of src/pulurobot: every command opens its own connection,
    writes its frame, and shuts the connection down again.

    The socket is abstract. `Link` says whether the robot's stream is open, and
    `written` lists the frames that reached the robot, one entry per successful
    `write_all`, across every connection the robot value has made. Whether a connect
    or a write succeeds is an input (`Net`); the bytes the robot sends back are an
    input too, everything it sends before the end of the stream. */
module Library {
  import opened Bits
  import opened Outcomes
  import opened Commands
  import opened Scan
  import opened RobotTypes
  import PointStore

  datatype Link = Down | Up

  datatype Robot = Robot(link: Link, config: PointStore.Config, written: seq<seq<byte>>)

  /** A result together with the robot value after the call (`&mut self`). */
  datatype Reply<T> = Reply(result: Result<T, RobotError>, robot: Robot)

  /** How the network treats one command: does the connect succeed, does the write. */
  datatype Net = Net(connects: bool, writes: bool)

  /** `from_config` once the record is loaded: connect, or fail with `Connection`. */
  function FromConfig(config: PointStore.Config, connects: bool): (r: Result<Robot, RobotError>)
    ensures r.Ok? <==> connects
    ensures r.Ok? ==> r.value.link == Up && r.value.config == config && r.value.written == []
    ensures r.Err? ==> r.error == Connection
  {
    if connects then Ok(Robot(Up, config, [])) else Err(Connection)
  }

  /** `connect`: on failure the old stream stays in place and the error is `Connection`. */
  function Connect(r: Robot, connects: bool): (rep: Reply<()>)
    ensures rep.result.Ok? <==> connects
    ensures connects ==> rep.robot == r.(link := Up)
    ensures !connects ==> rep == Reply(Err(Connection), r)
  {
    if connects then Reply(Ok(()), r.(link := Up)) else Reply(Err(Connection), r)
  }

  /** `disconnect`: shut the stream down in both directions. */
  function Disconnect(r: Robot): (d: Robot)
    ensures d.link == Down && d.config == r.config && d.written == r.written
  {
    r.(link := Down)
  }

  /** The body shared by `free`, `goto`, `localize` and `stop`: connect (else
      `Connection`, nothing written), `write_all` (else `Write`, returning before the
      disconnect, so the stream stays open), then disconnect and `Ok`. */
  function Send(r: Robot, c: Command, net: Net): (rep: Reply<()>)
    ensures rep.robot.config == r.config
    ensures rep.result.Ok? <==> net.connects && net.writes
    ensures !net.connects ==> rep == Reply(Err(Connection), r)
    ensures net.connects && !net.writes ==>
      rep.result == Err(Write) && rep.robot.link == Up && rep.robot.written == r.written
    ensures rep.result.Ok? ==>
      && rep.robot.link == Down
      && |rep.robot.written| == |r.written| + 1
      && rep.robot.written[..|r.written|] == r.written
      && Decode(rep.robot.written[|r.written|]) == Some(c)
  {
    var conn := Connect(r, net.connects);
    if conn.result.Err? then Reply(Err(Connection), r)
    else if !net.writes then Reply(Err(Write), conn.robot)
    else
      EncodeDecode(c);
      var sent := conn.robot.(written := conn.robot.written + [Encode(c)]);
      assert sent.written[..|r.written|] == r.written;
      Reply(Ok(()), Disconnect(sent))
  }

  function Free(r: Robot, net: Net): (rep: Reply<()>)
    ensures rep.result.Ok? ==> rep.robot.written == r.written + [[58, 0, 1, 5]]
    ensures rep.result.Ok? <==> net.connects && net.writes
  {
    Send(r, Command.Free, net)
  }

  function Localize(r: Robot, net: Net): (rep: Reply<()>)
    ensures rep.result.Ok? ==> rep.robot.written == r.written + [[58, 0, 1, 3]]
    ensures rep.result.Ok? <==> net.connects && net.writes
  {
    Send(r, Command.Localize, net)
  }

  function Stop(r: Robot, net: Net): (rep: Reply<()>)
    ensures rep.result.Ok? ==> rep.robot.written == r.written + [[58, 0, 1, 8]]
    ensures rep.result.Ok? <==> net.connects && net.writes
  {
    Send(r, Command.Stop, net)
  }

  /** `goto(x, y)`: the twelve-byte frame with x and y big-endian, and the robot reads
      back exactly x and y from bytes 3..7 and 7..11. */
  function Goto(r: Robot, x: i32, y: i32, net: Net): (rep: Reply<()>)
    ensures rep.result.Ok? <==> net.connects && net.writes
    ensures rep.result.Ok? ==> |rep.robot.written| == |r.written| + 1
    ensures rep.result.Ok? ==>
      var w := rep.robot.written[|r.written|];
      && rep.robot.written == r.written + [w]
      && |w| == 12 && w[..3] == [56, 0, 9] && w[11] == 0
      && ReadI32(w[3..7]) == x && ReadI32(w[7..11]) == y
  {
    var rep := Send(r, Command.Goto(x, y), net);
    if rep.result.Ok? then
      assert rep.robot.written == rep.robot.written[..|r.written|] + [rep.robot.written[|r.written|]];
      rep
    else rep
  }

  /** `goto_point`: an unknown name is a `Read` error and nothing happens; every
      failure of `goto`, a failed connect included, is reported as `Write`; on
      success the robot was sent the stored coordinates of the point. */
  function GotoPoint(r: Robot, name: string, net: Net): (rep: Reply<()>)
    ensures name != "a" && name != "b" ==> rep == Reply(Err(Read), r)
    ensures (name == "a" || name == "b") && rep.result.Err? ==> rep.result.error == Write
    ensures rep.result.Ok? <==> (name == "a" || name == "b") && net.connects && net.writes
    ensures rep.robot.config == r.config
    ensures rep.result.Ok? ==>
      var p := PointStore.GetPoint(r.config, name).value;
      |rep.robot.written| == |r.written| + 1 && Decode(rep.robot.written[|r.written|]) == Some(Command.Goto(p.0, p.1))
    ensures rep.result.Ok? ==> rep.robot.written[..|r.written|] == r.written && rep.robot.link == Down
  {
    match PointStore.GetPoint(r.config, name)
    case Ok(p) =>
      var g := Goto(r, p.0, p.1, net);
      if g.result.Ok? then
        var w := g.robot.written[|r.written|];
        assert Decode(w) == Some(Command.Goto(p.0, p.1));
        Reply(Ok(()), g.robot)
      else Reply(Err(Write), g.robot)
    case Err(_) => Reply(Err(Read), r)
  }

  /** `get_location`: connect (else `Connection`), then read frames until the first
      position frame, disconnect, and return its coordinates. A read past the end of
      the stream or a position frame shorter than eleven bytes panics. */
  function GetLocation(r: Robot, connects: bool, incoming: seq<byte>): (run: Run<Reply<Location>>)
    ensures !connects ==> run == Returns(Reply(Err(Connection), r))
    ensures run.Returns? && run.value.result.Err? ==> run.value.result.error == Connection
    ensures run.Returns? && run.value.result.Ok? ==>
      && PositionIn(Framing.ParseAll(incoming)) == Found(run.value.result.value)
      && run.value.robot == r.(link := Down)
    ensures connects ==> (run.Panics? <==> !PositionIn(Framing.ParseAll(incoming)).Found?)
    ensures connects && PositionIn(Framing.ParseAll(incoming)).Found? ==>
      run == Returns(Reply(Ok(PositionIn(Framing.ParseAll(incoming)).loc), r.(link := Down)))
    ensures connects && PositionIn(Framing.ParseAll(incoming)) == Exhausted ==> run == Panics(StreamEnded)
    ensures connects && PositionIn(Framing.ParseAll(incoming)) == ShortPosition ==> run == Panics(PayloadTooShort(130))
  {
    var conn := Connect(r, connects);
    if conn.result.Err? then Returns(Reply(Err(Connection), r))
    else
      match FirstPosition(incoming)
      case Exhausted => Panics(StreamEnded)
      case ShortPosition => Panics(PayloadTooShort(130))
      case Found(loc) => Returns(Reply(Ok(loc), Disconnect(conn.robot)))
  }

  /** `get_state` is not implemented. */
  function GetState(): (r: Result<RobotState, RobotError>)
  {
    Err(NotYetImplemented)
  }

  /** `save_location`: errors and panics of `get_location` pass through unchanged;
      after a successful read the point is stored in the record in any case, and a
      failure to write the configuration file is reported as `Write`. */
  function SaveLocation(r: Robot, name: string, connects: bool, incoming: seq<byte>, persists: bool)
    : (run: Run<Reply<()>>)
    ensures run.Panics? <==> GetLocation(r, connects, incoming).Panics?
    ensures run.Panics? ==> GetLocation(r, connects, incoming).Panics? && run.why == GetLocation(r, connects, incoming).why
    ensures !connects ==> run == Returns(Reply(Err(Connection), r))
    ensures run.Returns? ==> run.value.robot.written == r.written
    ensures connects && run.Returns? ==> run.value.robot.link == Down
    ensures connects && PositionIn(Framing.ParseAll(incoming)).Found? ==>
      var loc := PositionIn(Framing.ParseAll(incoming)).loc;
      && run.Returns?
      && (run.value.result.Ok? <==> persists)
      && (run.value.result.Err? ==> run.value.result.error == Write)
      && PointStore.SameConnection(r.config, run.value.robot.config)
      && ((name == "a" || name == "b") ==> PointStore.GetPoint(run.value.robot.config, name) == Ok((loc.x, loc.y)))
      && (forall other :: other != name ==>
            PointStore.GetPoint(run.value.robot.config, other) == PointStore.GetPoint(r.config, other))
  {
    match GetLocation(r, connects, incoming)
    case Returns(Reply(Ok(loc), r1)) =>
      var (stored, config) := PointStore.SetPoint(r1.config, name, loc.x, loc.y);
      var r2 := r1.(config := config);
      if stored.Err? then Returns(Reply(Err(Write), r2))
      else if !persists then Returns(Reply(Err(Write), r2))
      else Returns(Reply(Ok(()), r2))
    case Returns(Reply(Err(e), r1)) => Returns(Reply(Err(e), r1))
    case Panics(why) => Panics(why)
    case Diverges => Diverges
  }

  /** The stub always answers `NotYetImplemented`. */
  lemma GetStateNotImplemented()
    ensures GetState().Err? && GetState().error == NotYetImplemented
  {
  }

  /** Starting from a closed stream, a command leaves a stream open exactly when the
      connect succeeded and the write failed. */
  lemma SendLeavesStreamOpenOnlyOnWriteFailure(r: Robot, c: Command, net: Net)
    requires r.link == Down
    ensures Send(r, c, net).robot.link == Up <==> net.connects && !net.writes
  {
  }
}

=== FILE: listener.dfy ===
/** The listen loop, run sequentially.

    Each pass reads one whole frame (header, then payload), decodes and delivers it,
    and only then polls the stop channel. `stop(i)` is the outcome of that poll after
    the i-th frame: true when a stop message is waiting or the sender has gone away,
    in which case the loop shuts the socket and ends. The incoming bytes are
    everything the robot sends before the connection reaches end of stream; running
    out of them in the middle of a read ends the loop. */
module Listener {
  import opened Bits
  import opened Outcomes
  import opened Framing
  import opened Telemetry

  datatype ListenEnd =
    | Cancelled             // a poll found the stop signal
    | EndOfStream           // a read ran past the end of the stream
    | DecodePanicked(opcode: byte) // a payload too short for its branch

  datatype ListenRun = ListenRun(delivered: seq<Frame>, end: ListenEnd)

  /** The frames delivered are the decodings of the frames on the wire, in order. */
  ghost predicate DeliveredInOrder(decode: (byte, seq<byte>) -> Run<Frame>, s: seq<byte>, delivered: seq<Frame>)
  {
    var fs := ParseAll(s);
    && |delivered| <= |fs|
    && forall i :: 0 <= i < |delivered| ==> decode(fs[i].opcode, fs[i].payload) == Returns(delivered[i])
  }

  /** Polls come after whole frames only: the loop stops right after the frame whose
      poll saw the stop signal, and every earlier poll saw none. */
  ghost predicate PolledAfterEachFrame(stop: nat -> bool, n: nat, r: ListenRun)
  {
    && (r.end.Cancelled? ==> |r.delivered| >= 1 && stop(n + |r.delivered| - 1))
    && (forall j :: n <= j < n + |r.delivered| - 1 ==> !stop(j))
    && (!r.end.Cancelled? ==> forall j :: n <= j < n + |r.delivered| ==> !stop(j))
  }

  /** A loop that did not stop on a poll stopped on the first frame it could not
      read whole, or on the first it could not decode. */
  ghost predicate EndedAtFault(decode: (byte, seq<byte>) -> Run<Frame>, s: seq<byte>, r: ListenRun)
  {
    var fs := ParseAll(s);
    var k := |r.delivered|;
    && (r.end.EndOfStream? ==> k == |fs|)
    && (r.end.DecodePanicked? ==>
          k < |fs| && r.end.opcode == fs[k].opcode && !decode(fs[k].opcode, fs[k].payload).Returns?)
  }

  /** One pass of the loop keeps the delivered frames in arrival order. */
  lemma DeliveredStep(decode: (byte, seq<byte>) -> Run<Frame>, s: seq<byte>,
                      f: RawFrame, rest: seq<byte>, frame: Frame, tail: seq<Frame>)
    requires ReadFrame(s) == Some((f, rest))
    requires decode(f.opcode, f.payload) == Returns(frame)
    requires DeliveredInOrder(decode, rest, tail)
    ensures DeliveredInOrder(decode, s, [frame] + tail)
  {
    var d := [frame] + tail;
    var fs := ParseAll(s);
    var later := ParseAll(rest);
    assert fs == [f] + later;
    forall i | 0 <= i < |d|
      ensures decode(fs[i].opcode, fs[i].payload) == Returns(d[i])
    {
      if i > 0 {
        assert d[i] == tail[i - 1] && fs[i] == later[i - 1];
      }
    }
  }

  /** One pass of the loop keeps the first fault where it was, one frame later. */
  lemma EndedStep(decode: (byte, seq<byte>) -> Run<Frame>, s: seq<byte>,
                  f: RawFrame, rest: seq<byte>, frame: Frame, tail: ListenRun)
    requires ReadFrame(s) == Some((f, rest))
    requires EndedAtFault(decode, rest, tail)
    ensures EndedAtFault(decode, s, ListenRun([frame] + tail.delivered, tail.end))
  {
    var fs := ParseAll(s);
    var later := ParseAll(rest);
    assert fs == [f] + later;
    if tail.end.DecodePanicked? {
      assert fs[1 + |tail.delivered|] == later[|tail.delivered|];
    }
  }

  /** One pass of the loop on top of the rest of the run keeps all three properties. */
  lemma ListenStep(decode: (byte, seq<byte>) -> Run<Frame>, s: seq<byte>, stop: nat -> bool, n: nat,
                   f: RawFrame, rest: seq<byte>, frame: Frame, tail: ListenRun)
    requires ReadFrame(s) == Some((f, rest))
    requires decode(f.opcode, f.payload) == Returns(frame) && !stop(n)
    requires DeliveredInOrder(decode, rest, tail.delivered)
    requires PolledAfterEachFrame(stop, n + 1, tail)
    requires EndedAtFault(decode, rest, tail)
    ensures DeliveredInOrder(decode, s, [frame] + tail.delivered)
    ensures PolledAfterEachFrame(stop, n, ListenRun([frame] + tail.delivered, tail.end))
    ensures EndedAtFault(decode, s, ListenRun([frame] + tail.delivered, tail.end))
  {
    DeliveredStep(decode, s, f, rest, frame, tail.delivered);
    EndedStep(decode, s, f, rest, frame, tail);
    assert n + |[frame] + tail.delivered| - 1 == (n + 1) + |tail.delivered| - 1;
  }

  function Listen(decode: (byte, seq<byte>) -> Run<Frame>, s: seq<byte>, stop: nat -> bool, n: nat): (r: ListenRun)
    ensures DeliveredInOrder(decode, s, r.delivered)
    ensures PolledAfterEachFrame(stop, n, r)
    ensures EndedAtFault(decode, s, r)
    decreases |s|
  {
    match ReadFrame(s)
    case None => ListenRun([], EndOfStream)
    case Some((f, rest)) =>
      assert ParseAll(s) == [f] + ParseAll(rest);
      match decode(f.opcode, f.payload)
      case Returns(frame) =>
        if stop(n) then ListenRun([frame], Cancelled)
        else
          var tail := Listen(decode, rest, stop, n + 1);
          ListenStep(decode, s, stop, n, f, rest, frame, tail);
          ListenRun([frame] + tail.delivered, tail.end)
      case _ => ListenRun([], DecodePanicked(f.opcode))
  }

  /** Frames F0..Fk..: with the first stop seen after frame k, the listener delivers
      exactly F0..Fk, decoded, and nothing of a later frame; with no stop at all it
      delivers every frame sent and ends at the end of the stream. */
  lemma {:induction false} ListenScripted(decode: (byte, seq<byte>) -> Run<Frame>, fs: seq<RawFrame>,
                                         decoded: seq<Frame>, stop: nat -> bool, k: nat)
    requires AllWellSized(fs) && |decoded| == |fs|
    requires forall i :: 0 <= i < |fs| ==> decode(fs[i].opcode, fs[i].payload) == Returns(decoded[i])
    requires k <= |fs|
    requires forall i :: 0 <= i < k ==> !stop(i)
    requires k < |fs| ==> stop(k)
    ensures k < |fs| ==> Listen(decode, SerializeAll(fs), stop, 0) == ListenRun(decoded[..k + 1], Cancelled)
    ensures k == |fs| ==> Listen(decode, SerializeAll(fs), stop, 0) == ListenRun(decoded, EndOfStream)
  {
    var s := SerializeAll(fs);
    assert s + [] == s;
    ParseSerialized(fs, []);
    assert ParseAll(s) == fs;
    var r := Listen(decode, s, stop, 0);
    assert DeliveredInOrder(decode, s, r.delivered);
    assert PolledAfterEachFrame(stop, 0, r);
    assert EndedAtFault(decode, s, r);
    assert !r.end.DecodePanicked?;
    var m := |r.delivered|;
    assert forall i :: 0 <= i < m ==> r.delivered[i] == decoded[i];
    if k < |fs| {
      assert stop(k);
      assert m == k + 1;
      assert r.end.Cancelled?;
      assert r.delivered == decoded[..k + 1];
    } else {
      assert r.end.EndOfStream?;
      assert r.delivered == decoded;
    }
  }
}

=== FILE: main_cli.dfy ===
/** The "listen" handler of src/main.rs, the client built on the robot library. It
    opens a connection of its own (panicking if it cannot), runs the listen loop with
    the full decoder, and `unwrap`s every read, so the end of the stream is a panic
    of the listening thread. */
module MainCli {
  import opened Bits
  import opened Outcomes
  import opened Framing
  import opened Telemetry
  import opened Listener

  function HandleListen(connects: bool, incoming: seq<byte>, stop: nat -> bool): (r: Run<ListenRun>)
    ensures r.Panics? <==> !connects
    ensures r.Panics? ==> r.why == ConnectFailed
    ensures r.Returns? ==>
      && DeliveredInOrder(MainDecode, incoming, r.value.delivered)
      && PolledAfterEachFrame(stop, 0, r.value)
      && EndedAtFault(MainDecode, incoming, r.value)
      && (r.value.end.DecodePanicked? ==>
            |ParseAll(incoming)[|r.value.delivered|].payload| < MainFloor(r.value.end.opcode))
  {
    if !connects then Panics(ConnectFailed)
    else Returns(Listen(MainDecode, incoming, stop, 0))
  }

  /** Exactly the delivered frames of opcode 138 are the bare announcement. */
  lemma {:induction false} TofFramesAnnounced(connects: bool, incoming: seq<byte>, stop: nat -> bool)
    requires connects
    ensures forall i :: 0 <= i < |HandleListen(connects, incoming, stop).value.delivered| ==>
      (HandleListen(connects, incoming, stop).value.delivered[i].Announced? <==>
         ParseAll(incoming)[i].opcode == TofOpcode)
  {
    var r := HandleListen(connects, incoming, stop).value;
    assert DeliveredInOrder(MainDecode, incoming, r.delivered);
    forall i | 0 <= i < |r.delivered|
      ensures r.delivered[i].Announced? <==> ParseAll(incoming)[i].opcode == TofOpcode
    {
      var f := ParseAll(incoming)[i];
      assert MainDecode(f.opcode, f.payload) == Returns(r.delivered[i]);
    }
  }
}

=== FILE: outcomes.dfy ===
/** Failure-carrying datatypes shared by every module of the model.

    `Result` is Rust's `Result<T, E>`. `Run` records how a piece of code that may
    panic (an `unwrap`, a slice index out of range, an explicit `panic!`) or loop
    forever ends: the returned value, the reason of the panic, or divergence. */
module Outcomes {

  datatype Option<+T> = None | Some(value: T)

  datatype Result<+T, +E> = Ok(value: T) | Err(error: E)

  /** Why a thread of the client stops with a panic. */
  datatype Panic =
    | ConnectFailed              // `TcpStream::connect(..)` matched to `panic!`
    | WriteFailed                // `stream.write(..).unwrap()`
    | StreamEnded                // `read_exact(..).unwrap()` at end of stream
    | PayloadTooShort(opcode: int) // a slice or index past the end of a payload
    | MissingCoordinate          // a point coordinate is `None` in the config

  datatype Run<+T> = Returns(value: T) | Panics(why: Panic) | Diverges
}

=== FILE: point_store.dfy ===
/** The configuration record of the library and its two named points, "a" and "b".

    `set_point` and `get_point` take the record by mutable reference in the source;
    here they are pure: `SetPoint` returns the updated record, `GetPoint` reads one. */
module PointStore {
  import opened Bits
  import opened Outcomes

  datatype Config = Config(
    name: string,
    manufacturer: string,
    robotAddress: string,
    robotPort: string,
    pointAX: i32,
    pointAY: i32,
    pointBX: i32,
    pointBY: i32)

  datatype ConfigError = Read | Open | FileNotFound | Deserialization | Serialization

  /** The connection fields, which no point operation touches. */
  predicate SameConnection(c: Config, d: Config)
  {
    c.name == d.name && c.manufacturer == d.manufacturer
    && c.robotAddress == d.robotAddress && c.robotPort == d.robotPort
  }

  /** `get_point`: the stored pair for "a" or "b", `Read` for any other name. */
  function GetPoint(c: Config, name: string): (r: Result<(i32, i32), ConfigError>)
    ensures r.Err? <==> name != "a" && name != "b"
    ensures r.Err? ==> r.error == Read
  {
    if name == "a" then Ok((c.pointAX, c.pointAY))
    else if name == "b" then Ok((c.pointBX, c.pointBY))
    else Err(Read)
  }

  /** `Config::new()`: empty strings and both points at the origin. */
  function NewConfig(): (c: Config)
    ensures c.name == "" && c.manufacturer == "" && c.robotAddress == "" && c.robotPort == ""
    ensures GetPoint(c, "a") == Ok((0, 0)) && GetPoint(c, "b") == Ok((0, 0))
  {
    Config("", "", "", "", 0, 0, 0, 0)
  }

  /** `set_point`: always `Ok`; "a" or "b" replaces that point, any other name
      leaves the record as it was. */
  function SetPoint(c: Config, name: string, x: i32, y: i32): (r: (Result<(), ConfigError>, Config))
    ensures r.0 == Ok(())
    ensures SameConnection(c, r.1)
    ensures name == "a" || name == "b" ==> GetPoint(r.1, name) == Ok((x, y))
    ensures forall other :: other != name ==> GetPoint(r.1, other) == GetPoint(c, other)
  {
    if name == "a" then (Ok(()), c.(pointAX := x, pointAY := y))
    else if name == "b" then (Ok(()), c.(pointBX := x, pointBY := y))
    else (Ok(()), c)
  }

  /** A name other than "a" and "b" leaves the whole record unchanged. */
  lemma SetUnknownPoint(c: Config, name: string, x: i32, y: i32)
    requires name != "a" && name != "b"
    ensures SetPoint(c, name, x, y).1 == c
  {
  }

  /** Storing a point and reading it back: the stored pair for the same name, the old
      answer for the other one. */
  lemma GetAfterSet(c: Config, n: string, m: string, x: i32, y: i32)
    requires n == "a" || n == "b"
    ensures GetPoint(SetPoint(c, n, x, y).1, m) == (if m == n then Ok((x, y)) else GetPoint(c, m))
  {
  }
}

=== FILE: robot_cli.dfy ===
/** The command handlers of src/robot/main.rs. This client opens one connection at
    start-up and hands the same stream to every handler; it ignores the errors of
    `read_exact`, so once the robot's stream has ended every further read leaves a
    zero-filled buffer behind, which decodes as an empty frame of opcode 0. */
module RobotCli {
  import opened Bits
  import opened Outcomes
  import opened Commands
  import opened Framing
  import opened Telemetry
  import opened Listener
  import opened Scan
  import opened CliConfig

  /** The "listen" loop never polls anything, so it is never cancelled. After the last
      whole frame it keeps reading empty frames of opcode 0, which print nothing, for
      ever: `EndOfStream` stands for that endless tail. Only a short position payload
      stops it, with a panic. */
  function HandleListen(incoming: seq<byte>): (r: ListenRun)
    ensures !r.end.Cancelled?
    ensures r.end.DecodePanicked? ==> r.end.opcode == PositionOpcode
    ensures DeliveredInOrder(RobotDecode, incoming, r.delivered)
    ensures EndedAtFault(RobotDecode, incoming, r)
    ensures r.end.EndOfStream? ==> |r.delivered| == |ParseAll(incoming)|
  {
    Listen(RobotDecode, incoming, (i: nat) => false, 0)
  }

  /** "goto a|b" on the shared stream: look the point up (an unknown name returns with
      nothing written, a missing coordinate panics), then `write(..).unwrap()`, which
      panics when the write fails. */
  function HandleGotoLocation(config: Config, name: string, writes: bool): (r: Run<seq<byte>>)
    ensures name != "a" && name != "b" ==> r == Returns([])
    ensures LookupPoint(config, name).Panics? ==> r == Panics(MissingCoordinate)
    ensures LookupPoint(config, name).Returns? && LookupPoint(config, name).value.Some? ==>
      var p := LookupPoint(config, name).value.value;
      && (r.Returns? <==> writes)
      && (r.Panics? ==> r.why == WriteFailed)
      && (r.Returns? ==> Decode(r.value) == Some(Command.Goto(p.0, p.1)))
  {
    match LookupPoint(config, name)
    case Returns(None) => Returns([])
    case Returns(Some((x, y))) =>
      if !writes then Panics(WriteFailed)
      else
        EncodeDecode(Command.Goto(x, y));
        Returns(Encode(Command.Goto(x, y)))
    case Panics(why) => Panics(why)
    case Diverges => Diverges
  }

  /** "save a|b" on the shared stream: scan for the first position frame and store its
      point. If the stream ends first, the zero-filled reads never show opcode 130 and
      the client loops for ever. */
  function HandleSaveLocation(config: Config, name: string, incoming: seq<byte>): (r: Run<Config>)
    ensures r.Diverges? <==> PositionIn(ParseAll(incoming)) == Exhausted
    ensures r.Panics? <==> PositionIn(ParseAll(incoming)) == ShortPosition
    ensures r.Panics? ==> r.why == PayloadTooShort(PositionOpcode)
    ensures r.Returns? ==>
      var loc := PositionIn(ParseAll(incoming)).loc;
      && SameConnection(config, r.value)
      && ((name == "a" || name == "b") ==> LookupPoint(r.value, name) == Returns(Some((loc.x, loc.y))))
      && (forall other :: other != name ==> LookupPoint(r.value, other) == LookupPoint(config, other))
  {
    match FirstPosition(incoming)
    case Exhausted => Diverges
    case ShortPosition => Panics(PayloadTooShort(PositionOpcode))
    case Found(loc) => Returns(StorePoint(config, name, loc.x, loc.y))
  }
}

=== FILE: robot_types.dfy ===
/** The shared vocabulary of the library: error kinds and the robot's state codes. */
module RobotTypes {
  import opened Bits

  /** `RobotErrorType`; both library front ends declare the same four kinds. */
  datatype RobotError = Connection | Write | Read | NotYetImplemented

  /** `RobotState`, whose discriminants run from -1 to 7. */
  datatype RobotState = Undef | Idle | Think | Fwd | Rev | Left | Right | Charging | Daijuing

  function Discriminant(s: RobotState): int
  {
    match s
    case Undef => -1
    case Idle => 0
    case Think => 1
    case Fwd => 2
    case Rev => 3
    case Left => 4
    case Right => 5
    case Charging => 6
    case Daijuing => 7
  }

  /** `RobotState::from(t: i8)`; every other code panics, hence the precondition. */
  function StateFrom(t: i8): (s: RobotState)
    requires -1 <= t <= 7
    ensures Discriminant(s) == t
  {
    match t
    case -1 => Undef
    case 0 => Idle
    case 1 => Think
    case 2 => Fwd
    case 3 => Rev
    case 4 => Left
    case 5 => Right
    case 6 => Charging
    case 7 => Daijuing
  }

  /** Every state is reached from its own discriminant. */
  lemma StateFromDiscriminant(s: RobotState)
    ensures -1 <= Discriminant(s) <= 7 && StateFrom(Discriminant(s)) == s
  {
  }

  /** Distinct codes give distinct states. */
  lemma StateFromInjective(t: i8, u: i8)
    requires -1 <= t <= 7 && -1 <= u <= 7 && t != u
    ensures StateFrom(t) != StateFrom(u)
  {
  }
}

=== FILE: scan.dfy ===
/** The "read the current location" loop used to save a point.

    It reads whole frames, passes over every opcode other than 130, and takes x and
    y from the first position frame through the slices `2..7` and `6..11`, so that
    frame must carry at least eleven payload bytes even though only 2..10 are read. */
module Scan {
  import opened Bits
  import opened Outcomes
  import opened Framing
  import opened Telemetry

  datatype Location = Location(x: i32, y: i32)

  datatype ScanEnd =
    | Found(loc: Location)
    | ShortPosition   // the first position frame is shorter than its slices
    | Exhausted       // the stream ended before a position frame was whole

  /** Index of the first frame with the opcode, or `|fs|` when there is none. */
  function FirstWith(fs: seq<RawFrame>, opcode: byte): (k: nat)
    ensures k <= |fs|
    ensures forall i :: 0 <= i < k ==> fs[i].opcode != opcode
    ensures k < |fs| ==> fs[k].opcode == opcode
  {
    if fs == [] then 0
    else if fs[0].opcode == opcode then 0
    else 1 + FirstWith(fs[1..], opcode)
  }

  /** Reference reading of a sequence of frames: the location carried in bytes 2..6
      and 6..10 of the first position frame. */
  function PositionIn(fs: seq<RawFrame>): ScanEnd
  {
    var k := FirstWith(fs, PositionOpcode);
    if k == |fs| then Exhausted
    else if |fs[k].payload| < 11 then ShortPosition
    else Found(Location(ReadI32(fs[k].payload[2..6]), ReadI32(fs[k].payload[6..10])))
  }

  /** The loop as written. */
  function FirstPosition(s: seq<byte>): (r: ScanEnd)
    ensures r == PositionIn(ParseAll(s))
    decreases |s|
  {
    match ReadFrame(s)
    case None => Exhausted
    case Some((f, rest)) =>
      assert ParseAll(s) == [f] + ParseAll(rest);
      assert ParseAll(s)[1..] == ParseAll(rest);
      if f.opcode == PositionOpcode then
        if |f.payload| < 11 then ShortPosition
        else
          ReadI32Prefix(f.payload[2..7], f.payload[2..6]);
          ReadI32Prefix(f.payload[6..11], f.payload[6..10]);
          Found(Location(ReadI32(f.payload[2..7]), ReadI32(f.payload[6..11])))
      else FirstPosition(rest)
  }

  /** Frames of other kinds sent before a position frame are skipped, and whatever
      comes after it is never looked at: the scan returns the coordinates the robot
      put in that frame. */
  lemma {:induction false} ScanSkipsOthers(others: seq<RawFrame>, angle: i16, x: i32, y: i32,
                                           extra: seq<byte>, tail: seq<byte>)
    requires AllWellSized(others)
    requires forall i :: 0 <= i < |others| ==> others[i].opcode != PositionOpcode
    requires |extra| < 0x1_0000 - 10
    ensures FirstPosition(SerializeAll(others + [RawFrame(PositionOpcode, PositionPayload(angle, x, y) + extra)]) + tail)
         == (if |extra| >= 1 then Found(Location(x, y)) else ShortPosition)
  {
    var p := PositionPayload(angle, x, y) + extra;
    var pos := RawFrame(PositionOpcode, p);
    var fs := others + [pos];
    assert AllWellSized(fs) by {
      assert forall i :: 0 <= i < |others| ==> fs[i] == others[i];
    }
    ParseSerializedPrefix(fs, tail);
    var parsed := ParseAll(SerializeAll(fs) + tail);
    assert parsed[..|fs|] == fs;
    assert forall i :: 0 <= i < |others| ==> parsed[i] == others[i];
    assert parsed[|others|] == pos;
    var k := FirstWith(parsed, PositionOpcode);
    assert k == |others|;
    assert p[2..6] == BeI32Bytes(x);
    assert p[6..10] == BeI32Bytes(y);
    I32RoundTrip(x);
    I32RoundTrip(y);
  }
}

=== FILE: telemetry.dfy ===
/** Inbound telemetry frames and the three payload decoders of the client.

    The listeners print what they decode; the model keeps the decoded values. A
    payload shorter than a branch's slices or indices makes the listener panic (the
    client has no fallback frame), which the decoders report as `PayloadTooShort`. */
module Telemetry {
  import opened Bits
  import opened Outcomes

  const PositionOpcode: byte := 130
  const BatteryOpcode: byte := 134
  const TofOpcode: byte := 138
  const StateOpcode: byte := 139
  const GeometryOpcode: byte := 140

  datatype Frame =
    | Position(angle: i16, x: i32, y: i32)
    | Battery(charging: bool, finished: bool, voltage: int, percentage: byte)
    | State(raw: byte)
    | Geometry(xs: i16, ys: i16, xoffs: i16, yoffs: i16)
      /** An opcode the listener names but does not decode. */
    | Announced(opcode: byte)
      /** An opcode the listener passes over. */
    | Unhandled(opcode: byte)

  /** The opcode a decoded frame came from. */
  function OpcodeOf(f: Frame): byte
  {
    match f
    case Position(_, _, _) => PositionOpcode
    case Battery(_, _, _, _) => BatteryOpcode
    case State(_) => StateOpcode
    case Geometry(_, _, _, _) => GeometryOpcode
    case Announced(op) => op
    case Unhandled(op) => op
  }

  /** Angle from bytes 0..2, x from 2..6, y from 6..10. */
  function DecodePosition(p: seq<byte>): Frame
    requires |p| >= 10
  {
    Position(ReadI16(p[0..2]), ReadI32(p[2..6]), ReadI32(p[6..10]))
  }

  /** The battery branch as written: `charging` is `p[0] & 1 == 1`, `finished` is
      `p[0] & 2 == 1`, and the voltage `((p[1] as i32) << 8) | (p[2] as i32) / 1000`
      divides before it ors. */
  function DecodeBattery(p: seq<byte>): (f: Frame)
    requires |p| >= 4
    ensures f.Battery?
    ensures f.charging <==> p[0] % 2 == 1
    ensures !f.finished
    ensures f.voltage == (p[1] as int) * 0x100
    ensures f.voltage % 0x100 == 0 && 0 <= f.voltage <= 0xFF00
    ensures f.percentage == p[3]
  {
    AndOne(p[0]);
    AndTwo(p[0]);
    Battery(And(p[0], 1) == 1, And(p[0], 2) == 1, Or((p[1] as int) * 0x100, p[2] / 1000), p[3])
  }

  /** Four big-endian `i16` from bytes 0..2, 2..4, 4..6 and 6..8. */
  function DecodeGeometry(p: seq<byte>): Frame
    requires |p| >= 8
  {
    Geometry(ReadI16(p[0..2]), ReadI16(p[2..4]), ReadI16(p[4..6]), ReadI16(p[6..8]))
  }

  /** The fewest payload bytes each branch of the listener in src/main.rs indexes. */
  function MainFloor(opcode: byte): nat
  {
    if opcode == PositionOpcode then 10
    else if opcode == BatteryOpcode then 4
    else if opcode == StateOpcode then 1
    else if opcode == GeometryOpcode then 8
    else 0
  }

  /** The listener of src/main.rs: 130, 134, 139, 140 decoded, 138 announced,
      everything else passed over. */
  function MainDecode(opcode: byte, p: seq<byte>): (r: Run<Frame>)
    ensures !r.Diverges?
    ensures r.Panics? <==> |p| < MainFloor(opcode)
    ensures r.Panics? ==> r.why == PayloadTooShort(opcode)
    ensures r.Returns? ==> OpcodeOf(r.value) == opcode
    ensures r.Returns? && r.value.Announced? <==> opcode == TofOpcode
    ensures r.Returns? && r.value.Unhandled? <==>
      opcode != PositionOpcode && opcode != BatteryOpcode && opcode != TofOpcode
      && opcode != StateOpcode && opcode != GeometryOpcode
    ensures opcode == StateOpcode && |p| >= 1 ==> r == Returns(State(p[0]))
  {
    if opcode == PositionOpcode then
      if |p| < 10 then Panics(PayloadTooShort(opcode)) else Returns(DecodePosition(p))
    else if opcode == BatteryOpcode then
      if |p| < 4 then Panics(PayloadTooShort(opcode)) else Returns(DecodeBattery(p))
    else if opcode == TofOpcode then
      Returns(Announced(opcode))
    else if opcode == StateOpcode then
      if |p| < 1 then Panics(PayloadTooShort(opcode)) else Returns(State(p[0]))
    else if opcode == GeometryOpcode then
      if |p| < 8 then Panics(PayloadTooShort(opcode)) else Returns(DecodeGeometry(p))
    else
      Returns(Unhandled(opcode))
  }

  /** The listener of src/console/main.rs: the same branches, except that 138 has
      no branch of its own and is passed over like any unknown opcode. */
  function ConsoleDecode(opcode: byte, p: seq<byte>): (r: Run<Frame>)
    ensures opcode != TofOpcode ==> r == MainDecode(opcode, p)
    ensures opcode == TofOpcode ==> r == Returns(Unhandled(TofOpcode))
    ensures r.Returns? ==> !r.value.Announced?
  {
    if opcode == PositionOpcode then
      if |p| < 10 then Panics(PayloadTooShort(opcode)) else Returns(DecodePosition(p))
    else if opcode == StateOpcode then
      if |p| < 1 then Panics(PayloadTooShort(opcode)) else Returns(State(p[0]))
    else if opcode == GeometryOpcode then
      if |p| < 8 then Panics(PayloadTooShort(opcode)) else Returns(DecodeGeometry(p))
    else if opcode == BatteryOpcode then
      if |p| < 4 then Panics(PayloadTooShort(opcode)) else Returns(DecodeBattery(p))
    else
      Returns(Unhandled(opcode))
  }

  /** The older listener of src/robot/main.rs: 130 sliced as 0..2, 2..7 and 6..11,
      140 only announced, everything else passed over. */
  function RobotDecode(opcode: byte, p: seq<byte>): (r: Run<Frame>)
    ensures r.Panics? <==> opcode == PositionOpcode && |p| < 11
    ensures opcode == PositionOpcode && |p| >= 11 ==> r == MainDecode(opcode, p)
    ensures opcode != PositionOpcode ==> r.Returns?
    ensures r.Returns? ==> !r.value.State? && !r.value.Geometry? && !r.value.Battery?
    ensures r.Returns? && r.value.Announced? <==> opcode == GeometryOpcode
    ensures r.Returns? ==> OpcodeOf(r.value) == opcode
  {
    if opcode == PositionOpcode then
      if |p| < 11 then Panics(PayloadTooShort(opcode))
      else
        ReadI32Prefix(p[2..7], p[2..6]);
        ReadI32Prefix(p[6..11], p[6..10]);
        Returns(Position(ReadI16(p[0..2]), ReadI32(p[2..7]), ReadI32(p[6..11])))
    else if opcode == GeometryOpcode then
      Returns(Announced(opcode))
    else
      Returns(Unhandled(opcode))
  }

  /** The first ten bytes of a position payload as the robot builds it. */
  function PositionPayload(angle: i16, x: i32, y: i32): seq<byte>
  {
    BeI16Bytes(angle) + BeI32Bytes(x) + BeI32Bytes(y)
  }

  /** Decoding a position payload, whatever follows its first ten bytes, recovers the
      angle and both coordinates; the older listener, which needs an eleventh byte,
      recovers them too once that byte is there. */
  lemma PositionRoundTrip(angle: i16, x: i32, y: i32, extra: seq<byte>)
    ensures MainDecode(PositionOpcode, PositionPayload(angle, x, y) + extra) == Returns(Position(angle, x, y))
    ensures |extra| >= 1 ==>
      RobotDecode(PositionOpcode, PositionPayload(angle, x, y) + extra) == Returns(Position(angle, x, y))
  {
    var p := PositionPayload(angle, x, y) + extra;
    assert p[0..2] == BeI16Bytes(angle);
    assert p[2..6] == BeI32Bytes(x);
    assert p[6..10] == BeI32Bytes(y);
    I16RoundTrip(angle);
    I32RoundTrip(x);
    I32RoundTrip(y);
  }

  function GeometryPayload(xs: i16, ys: i16, xoffs: i16, yoffs: i16): seq<byte>
  {
    BeI16Bytes(xs) + BeI16Bytes(ys) + BeI16Bytes(xoffs) + BeI16Bytes(yoffs)
  }

  /** Decoding a geometry payload, whatever follows its first eight bytes, recovers its
      four fields in order. */
  lemma GeometryRoundTrip(xs: i16, ys: i16, xoffs: i16, yoffs: i16, extra: seq<byte>)
    ensures MainDecode(GeometryOpcode, GeometryPayload(xs, ys, xoffs, yoffs) + extra)
         == Returns(Geometry(xs, ys, xoffs, yoffs))
  {
    var p := GeometryPayload(xs, ys, xoffs, yoffs) + extra;
    assert p[0..2] == BeI16Bytes(xs);
    assert p[2..4] == BeI16Bytes(ys);
    assert p[4..6] == BeI16Bytes(xoffs);
    assert p[6..8] == BeI16Bytes(yoffs);
    I16RoundTrip(xs);
    I16RoundTrip(ys);
    I16RoundTrip(xoffs);
    I16RoundTrip(yoffs);
  }

  /** Charging and finished bits set, voltage bytes 0x01 0xF4, 50 percent:
      the listener reports charging, not finished, voltage 256. */
  lemma BatteryVector()
    ensures MainDecode(BatteryOpcode, [3, 0x01, 0xF4, 50]) == Returns(Battery(true, false, 256, 50))
  {
  }

  /** An unknown opcode is passed over whatever its payload. */
  lemma UnknownOpcodeVector()
    ensures MainDecode(200, [1, 2, 3]) == Returns(Unhandled(200))
  {
  }
}
